=== FILE: README.md ===
# odaikun backend core, modelled in Dafny

odaikun is a small FastAPI service. Users sign up and log in with an email and a password.
They post "topics" (short prompts with an optional picture). The owner or a superuser can
soft-delete a topic. This project models the service's core as pure Dafny functions over an
immutable database value, and proves properties about them:

- **Token codec** (`security.dfy`).
  - The access token is an HS256 JSON Web Token, modelled symbolically. A token records the key,
    the algorithm and the exact claims its code was computed over.
  - `Decode` checks three things, in this order: the header algorithm is allowed, the code
    verifies, and `exp` lies in the future.
  - `CreateAccessToken` copies the caller's claims and adds `exp`. A lifetime that is absent or
    zero falls back to 15 minutes.
- **Authentication** (`auth.dfy`).
  - `GetCurrentUser` resolves a bearer token to a stored account, or fails with a 401 that
    carries a `WWW-Authenticate: Bearer` challenge.
  - The active gate answers 400 to an inactive account.
  - The superuser gate answers 403 to anyone else. It builds on resolution alone, so an
    inactive superuser passes it.
  - `AuthenticateUser` and `SignUpNewUser` answer "no" with `None`, where the program returns
    `False`.
- **Login and signup routes** (`auth_routes.dfy`).
  - Both issue a 30-minute bearer token.
  - The token's `permissions` claim is `"admin"` for superusers and `"user"` otherwise.
  - Login answers 401 to bad credentials.
  - Signup answers 409 to an email that is already registered.
- **User CRUD** (`user_crud.dfy`).
  - The `user` table is a map from id to row, plus the id sequence's next value.
  - The unique index on `email` is the invariant `Valid`. A write that would break it fails with
    an integrity error and changes nothing.
  - Edits apply only the fields the client set. The password is replaced by its digest.
- **Topic CRUD** (`topic_crud.dfy`).
  - The eight listings are filters over the table in ascending id order.
  - The keyword searches use the SQL `LIKE` pattern `'%\' || keyword || '%'` with escape
    character `\`. `like.dfy` gives that pattern a matcher.
  - Create, edit and drop check the signed-in caller first (401). Edit then checks the
    contributor id *in the request body* (403), and then that the topic exists (404). Drop checks
    that the topic exists (404), and then the stored contributor or superuser status (403).
  - Drop only sets `is_visible` to false.

The repository holds two revisions of the database layer:

- `backend/app/db/crud.py`, a single module;
- the package `backend/app/db/crud/`, with `topic_crud.py` and `user_crud.py`.

`backend/app/core/auth.py:9` imports `app.db.crud.user_crud`, so `app.db.crud` resolves to the
package. A package directory shadows the same-named `crud.py`, which Python therefore never
loads. The names the topics router imports from `app.db.crud` come from the package's
`__init__.py`, which is not part of this model. The live revision is therefore most likely the
package, or whatever its `__init__.py` re-exports.

The two revisions differ in the ownership test of `drop_topic`. `crud.py:247` compares ids by
value with `!=`. `crud/topic_crud.py:253` compares them by identity with `is not`, which is the
defect under "## Findings".

The schemas are shadowed the same way. `backend/app/core/auth.py:10` imports `tokens` and
`users` from `app.db.schemas`, which only the package `db/schemas/` defines. So that package
shadows `db/schemas.py`, where `picture_url` is a `str`, and both crud revisions would bind the
package, where it is an `HttpUrl`.

The model's main definitions follow `crud.py`'s value comparison. That is a modelling choice: it
is the evidently intended behaviour. The identity-based revision, which may be the one that
runs, is modelled beside it as `TopicCrud.DropTopicAsWritten`.

Some behaviour the model makes explicit:

- A successful topic edit writes the body's `contributor_id` to the row. Since the ownership
  check reads that same body field, any signed-in user can take over any topic
  (`TopicCrud.EditTransfersOwnership`).
- A non-empty keyword `k` whose characters after the first are not special to `LIKE` matches
  exactly the texts that contain `k`. The leading `\` only escapes `k`'s first character. The
  empty keyword yields the pattern `%\%` and matches only the texts that *end* in `%`.
- The token is advisory. A deleted account's token resolves to 401. A deactivated account's
  token resolves, and the active gate then answers 400.

The modules are:

- `Wrappers` for `Option`, `Result` and `Patch`;
- `Ordered` for id-ordered listings and `Filter`;
- `Models` for rows, the database and errors;
- `Security`, `Like`, `UserCrud`, `TopicCrud`, `Auth` and `AuthRoutes` for the operations above;
- `Scenarios` for properties that chain several requests.

## Model

| member | source | states |
|---|---|---|
| Security.Decode | backend/app/core/auth.py:34-37 | A token decodes only if its algorithm is allowed and its code was computed under the key over exactly its claims, and then to those claims. With `exp` it decodes iff `now < exp`. |
| Security.ExpiryOf | backend/app/core/security.py:55-58 | The expiry is issue time plus the given lifetime when that lifetime is non-zero, and plus 15 minutes when it is absent or zero (a falsy `timedelta`). |
| Security.CreateAccessToken | backend/app/core/security.py:43-61 | The token is signed with the process secret under HS256 and carries the caller's `sub` and `permissions` plus `exp`. At every later instant it decodes iff that instant is before the expiry. |
| Security.DecodeEncode | backend/app/core/security.py:59-61 | Decoding a token this issuer encoded gives back exactly its claims while it is unexpired (round trip with `jwt.decode` at core/auth.py:35-37). |
| Security.TamperedClaimsRejected | backend/app/core/auth.py:45-46 | Claims altered after signing never decode: the algorithm check or the signature check refuses them. |
| Security.ForeignKeyRejected | backend/app/core/security.py:11-12 | A token signed under any key other than the process secret is refused as an invalid signature. |
| Auth.GetCurrentUser | backend/app/core/auth.py:13-50 | A missing header gives 401 "Not authenticated". Every other failure (undecodable, no `sub`, no `permissions`, unknown email) gives the one 401 with a Bearer challenge. With a header present, every failure is exactly that credentials 401. Success means the token is usable and the stored account is the one whose email is `sub`. |
| Auth.RequireActive | backend/app/core/auth.py:69-71 | Passes the user unchanged iff active, else 400 "Inactive user". |
| Auth.RequireSuperuser | backend/app/core/auth.py:90-94 | Passes the user unchanged iff superuser, else 403 "The user doesn't have enough privileges". |
| Auth.GetCurrentActiveUser | backend/app/core/auth.py:53-71 | Resolution errors pass through unchanged. A resolved user passes iff active. |
| Auth.GetCurrentActiveSuperuser | backend/app/core/auth.py:74-94 | Resolution errors pass through unchanged. A resolved user passes iff superuser, whatever `is_active` says. |
| Auth.InactiveSuperuserPassesSuperuserGate | backend/app/core/auth.py:74-76 | An inactive superuser is refused (400) by the active gate yet admitted by the superuser gate. |
| Auth.PermissionsValueIrrelevant | backend/app/core/auth.py:41-50 | Only the presence of the `permissions` claim matters: two tokens that differ only in its value resolve alike. |
| Auth.AuthenticateUser | backend/app/core/auth.py:97-114 | The result is the one stored user with this email, and only when the password verifies against its digest. An unknown email gives `None`. |
| Auth.SignUpNewUser | backend/app/core/auth.py:117-141 | Refuses (`None`, nothing stored) iff the email is in use. Otherwise it stores an active non-superuser under a fresh id with the password's digest, keeping emails unique. |
| AuthRoutes.PermissionFor | backend/app/api/api_v1/routers/auth.py:37-40 | The permission is "admin" iff the user is a superuser, and "user" iff not. |
| AuthRoutes.IssueToken | backend/app/api/api_v1/routers/auth.py:36-46 | The response's type is "bearer". Its token decodes to the user's email and permission for 30 minutes after issue, and as expired from then on. |
| AuthRoutes.Login | backend/app/api/api_v1/routers/auth.py:13-46 | 401 "Incorrect username or password" with a Bearer challenge iff authentication fails. Otherwise the token names the authenticated user. |
| AuthRoutes.Signup | backend/app/api/api_v1/routers/auth.py:49-82 | 409 "Account already exists" with a Bearer challenge, storing nothing, iff the email is in use. Otherwise it stores an active non-superuser under the next id and returns a "user" token naming the email. |
| UserCrud.GetUser | backend/app/db/crud.py:11-28 | The stored user with this id iff one exists, else 404 "User not found". |
| UserCrud.GetUserByEmail | backend/app/db/crud.py:31-42 | Whenever some stored user has the email, the result is that user. A result always has the email. |
| UserCrud.LookupFindsUsedEmail | backend/app/db/crud.py:42 | On a valid database the email lookup finds a user iff some stored user has that email. |
| UserCrud.LookupFindsOtherEmail | backend/app/db/models/user_table.py:18 | The lookup finds a user other than `id` iff another user holds the email, which is exactly when the unique index refuses the edit. |
| UserCrud.GetUsers | backend/app/db/crud.py:45-57 | At most `limit` users. They are the id-ordered listing from position `skip` on, and fewer than `limit` only when the listing runs out. |
| UserCrud.CreateUser | backend/app/db/crud.py:60-83 | Fails with the email integrity error, storing nothing, iff the email is in use. Otherwise it stores the client's fields and the password's digest under the next id, and nothing else changes. |
| UserCrud.DeleteUser | backend/app/db/crud.py:86-105 | Succeeds iff the user exists, returning it. Afterwards exactly that id is gone, other rows are unchanged, the topics and both sequences are untouched, and a missing id gives 404. |
| UserCrud.EditUser | backend/app/db/crud.py:108-138 | Gives 404 for an unknown id. The email integrity error comes iff another user has the email. Otherwise the email and password digest are replaced, set fields overwrite, unset fields and the id are kept, and only that row changes. |
| TopicCrud.GetTopic | backend/app/db/crud.py:141-145 | The stored topic, hidden or not, iff one exists, else 404 "Topic not found". |
| TopicCrud.GetTopics | backend/app/db/crud.py:148-149 | Exactly the visible stored topics, each once, by ascending id. |
| TopicCrud.GetAllTopics | backend/app/db/crud.py:152-153 | Exactly the stored topics, each once, by ascending id. |
| TopicCrud.GetTopicsByUser | backend/app/db/crud.py:156-162 | Exactly the visible topics whose contributor is the user, by ascending id. |
| TopicCrud.GetAllTopicsByUser | backend/app/db/crud.py:165-166 | Exactly the topics whose contributor is the user, hidden ones included, by ascending id. |
| TopicCrud.GetAdoptedTopics | backend/app/db/crud.py:169-175 | Exactly the visible adopted topics, by ascending id. |
| TopicCrud.GetAdoptedTopicsByUser | backend/app/db/crud.py:178-185 | Exactly the visible adopted topics of the user, by ascending id. |
| TopicCrud.GetTopicsByKeyword | backend/app/db/crud.py:188-194 | Exactly the visible topics whose text matches `'%\' + keyword + '%'` under `LIKE` with escape `\`, by ascending id. |
| TopicCrud.GetAllTopicsByKeyword | backend/app/db/crud.py:197-202 | Exactly the topics, hidden included, whose text matches the keyword pattern, by ascending id. |
| TopicCrud.VisibleWithinAll | backend/app/db/crud.py:148-153 | The visible listing is the full listing with hidden topics dropped, order included. |
| TopicCrud.ByUserWithinAllByUser | backend/app/db/crud.py:156-166 | A user's visible topics are all that user's topics with hidden ones dropped. |
| TopicCrud.ByUserWithinVisible | backend/app/db/crud.py:148-162 | A user's visible topics are the visible listing restricted to that contributor. |
| TopicCrud.AdoptedByUserWithinAdopted | backend/app/db/crud.py:169-185 | A user's adopted topics are the adopted listing restricted to that contributor. |
| TopicCrud.KeywordWithinAllKeyword | backend/app/db/crud.py:188-202 | The visible keyword search is the full keyword search with hidden topics dropped. |
| TopicCrud.KeywordSearchIsSubstring | backend/app/db/crud.py:192 | For a non-empty keyword with no `%`, `_` or `\` after its first character, both searches list exactly the topics whose text contains the keyword. |
| Like.KeywordIsSubstring | backend/app/db/crud.py:192 | Under that condition a text matches the keyword pattern iff it contains the keyword. |
| Like.EmptyKeywordFindsTrailingPercent | backend/app/db/crud.py:200 | The empty keyword's pattern `%\%` matches a text iff it ends in `%`. |
| TopicCrud.CreateTopic | backend/app/db/crud.py:205-218 | Without a caller: 401 "Login required" and nothing stored. Otherwise it stores under the next id a topic owned by the caller, dated today, visible and not adopted (table defaults, backend/app/db/models/topic_table.py:23-24), with the body and picture from the request. |
| TopicCrud.EditTopic | backend/app/db/crud.py:221-238 | Checks 401, then 403 "You are not contributor" (caller vs the body's contributor id), then 404. Success iff all three pass; set fields overwrite, unset ones are kept, and only that row changes. |
| TopicCrud.EditTransfersOwnership | backend/app/db/crud.py:226-233 | A signed-in caller who names themself as contributor in the body edits any existing topic successfully and becomes its contributor. |
| TopicCrud.DropTopic | backend/app/db/crud.py:241-257 | Checks 401, then 404, then 403 "You don't have permission" unless the caller is the stored contributor or a superuser. On success the database after it is the one before with only that row's `is_visible` set to false; the row stays. |
| TopicCrud.DropIdempotent | backend/app/db/crud.py:241-257 | A second identical drop succeeds and returns the same topic and database. |
| TopicCrud.DroppedTopicHidden | backend/app/db/crud.py:253 | After a drop the topic is absent from the visible listing and still in the full listing. |
| TopicCrud.DropTopicAsWritten | backend/app/db/crud/topic_crud.py:231-263 | Checks 401, then 404, then 403 "You don't have permission" when the identity test `is not` (under CPython's small-integer caching) finds the caller is not the contributor and is not a superuser. On success only that row's `is_visible` becomes false, and the database invariant is kept. |
| TopicCrud.RevisionsAgreeOnSmallIds | backend/app/db/crud/topic_crud.py:253 | The identity revision and the value revision agree for every superuser and for every caller id in -5..256. |
| TopicCrud.OwnerAbove256Refused | backend/app/db/crud/topic_crud.py:253-258 | User 257, not a superuser, owns topic 1: the identity revision answers 403 where the value revision hides the topic. |
| Scenarios.SignUpThenLogin | backend/app/api/api_v1/routers/auth.py:13-82 | With a sound password context, a sign-up with a fresh email through the signup route is followed by a successful login through the login route at any later time, whose token names that email. |
| Scenarios.SecondSignUpConflicts | backend/app/api/api_v1/routers/tests/test_auth.py:63-83 | Once an email has signed up, signing up again with it gives 409 and changes nothing, whatever the password. |
| Scenarios.LoginTokenResolvesUntilExpiry | backend/app/api/api_v1/routers/auth.py:36-46 | A login token resolves to the authenticated account for 30 minutes after issue, and gives the credentials 401 from then on. |
| Scenarios.NegativeLifetimeRejected | backend/app/core/security.py:55-56 | A token issued with any negative lifetime is already expired and resolves to the credentials 401 at the instant of issue and at every later instant. |
| Scenarios.TamperedTokenRejected | backend/app/core/auth.py:34-46 | A token with altered claims resolves to the credentials 401. |
| Scenarios.DeletedAccountRejected | backend/app/core/auth.py:47-49 | A token that resolved to an account resolves to 401 once that account is deleted. |
| Scenarios.DeactivatedAccountRejected | backend/app/core/auth.py:69-70 | After an edit that sets `is_active` to false, the account's still-valid token gets 400 at the active gate. |
| Scenarios.AnonymousRejected | backend/app/api/api_v1/routers/tests/test_users.py:152-168 | Without a bearer header both gates answer 401 "Not authenticated". |
| Scenarios.OwnershipOfDrop | backend/app/api/api_v1/routers/tests/test_topics.py:65-106 | A freshly posted topic cannot be dropped by another non-superuser (403, still visible). A superuser can drop it, and it leaves the visible listing. |

## Left out

- Cryptography. HMAC SHA-256 and the base64url/JSON encoding of tokens are symbolic: a token
  records what it was signed over. The model does not represent forgery by breaking the MAC.
- Password hashing. bcrypt and its random salt are abstract: `hash` and `verify` are function
  values, and only soundness (`verify(p, hash(p))`) is assumed where a lemma needs it.
- Clocks. `datetime.utcnow()` and the decoder's clock are a `now` parameter in whole seconds.
  PyJWT's truncation of `exp` to whole seconds is folded into that choice.
- Expiry rule. The decoder is taken to refuse a token once `exp <= now`, with no leeway. This
  boundary is a choice. The repository pins no PyJWT version, and some PyJWT releases accept a
  token at `now == exp`. PyJWT is not part of this model.
- Claims. Claims other than `sub`, `permissions` and `exp` are not modelled. The core neither
  reads nor writes any others.
- Request plumbing. FastAPI dependency injection, the `OAuth2PasswordBearer` header parsing
  (`backend/app/core/security.py:7`) and pydantic validation are not modelled. A missing or
  non-Bearer header becomes `None`. The `picture_url` URL validation is not modelled.
- Sessions. SQLAlchemy sessions, commits, refreshes and rollbacks are reduced to "a failing
  write returns the database unchanged".
- UserCrud.CreateUser: a failed insert does not advance the id sequence in the model; PostgreSQL
  would consume a value.
- UserCrud.DeleteUser: does not model what the ORM does to the deleted user's topics (their
  `contributor_id`). The relationship options in `backend/app/db/models/topic_table.py` are not
  part of this model, and the topics are left as they were.
- UserCrud.GetUsers: `skip` and `limit` are natural numbers. Negative values, which the database
  would reject or read as "no limit", are not modelled.
- TopicCrud.KeywordSearchIsSubstring: the substring reading is proved only for keywords with no
  `%`, `_` or `\` after the first character. Other keywords are covered by the `LIKE` matcher
  itself (`Like.Like`), not by a substring lemma.
- Listing contracts hold on a valid database (`Models.Valid`: ids match keys, ids lie below the
  sequence's next value, emails are unique). The empty database is valid (`Models.EmptyDbValid`),
  and every write preserves validity.
- Database engine. The repository's files do not name the engine; the model takes it to be
  PostgreSQL. That choice fixes three things: case-sensitive `LIKE`, sequence consumption, and
  heap order. Under a case-insensitive `LIKE` (SQLite's default for ASCII, say), `Like.Like` and
  `Like.KeywordIsSubstring` would not hold as stated.
- Order of listings. SQL gives no order without `ORDER BY`. The model fixes ascending id, the
  order PostgreSQL returns for a freshly inserted heap table, and states each listing as "exactly
  these rows, in this order".
- The users and topics routers, the Celery worker, the initial-data script, the frontend and the
  `print` calls are not part of this model.
- `backend/app/db/models/__init__.py` and the ORM relationship declarations are not part of this
  model.

## Findings

| source | as written | input that shows it | evidently intended | confidence | as-written member | corrected member |
|---|---|---|---|---|---|---|
| backend/app/db/crud/topic_crud.py:253 | The ownership test is `current_user.id is not topic.contributor_id`. That is object identity: CPython shares integer objects only from -5 to 256, and ids read from two different rows are distinct objects above that. | A user with id 257, not a superuser, drops topic 1, which they contributed: the answer is 403 "You don't have permission". | Compare ids by value (`!=`), as `backend/app/db/crud.py:247` does, so the contributor may always drop their own topic. | medium, not executed | TopicCrud.OwnerAbove256Refused | TopicCrud.DropTopic |

=== FILE: auth.dfy ===
/** Identity resolution from a bearer token, the active and superuser gates layered on it,
    password authentication, and account sign-up. */
module Auth {
  import opened Wrappers
  import opened Models
  import opened Security
  import UserCrud

  /** The one rejection for every token that cannot be turned into a live user. */
  const CredentialsError := HttpError(401, "Could not validate credentials", true)

  /** No `Authorization: Bearer` header at all: the bearer scheme rejects before resolution. */
  const NotAuthenticated := HttpError(401, "Not authenticated", true)

  const InactiveUser := HttpError(400, "Inactive user", false)
  const NotEnoughPrivileges := HttpError(403, "The user doesn't have enough privileges", false)

  /** The claims of a token the resolver accepts: it decodes now and carries both `sub` and
      `permissions`. */
  predicate Usable(bearer: Option<Token>, now: int)
  {
    && bearer.Some?
    && DecodeAccessToken(bearer.value, now).Ok?
    && DecodeAccessToken(bearer.value, now).value.sub.Some?
    && DecodeAccessToken(bearer.value, now).value.permissions.Some?
  }

  /** The subject email of a usable token. */
  function Subject(bearer: Option<Token>, now: int): string
    requires Usable(bearer, now)
  {
    DecodeAccessToken(bearer.value, now).value.sub.value
  }

  /** Resolves the bearer token to the live user it names. In order: a missing header, a token
      that does not decode (malformed, badly signed or expired), a missing `sub` claim, a missing
      `permissions` claim, and a subject no stored user has, each end in 401. The value of the
      `permissions` claim plays no further part. */
  function GetCurrentUser(db: Db, bearer: Option<Token>, now: int): (r: Result<User, Error>)
    ensures bearer.None? ==> r == Err(NotAuthenticated)
    ensures bearer.Some? && !Usable(bearer, now) ==> r == Err(CredentialsError)
    ensures bearer.Some? && r.Err? ==> r == Err(CredentialsError)
    ensures r.Err? ==> r.error.HttpError? && r.error.status == 401 && r.error.challenge
    ensures r.Ok? ==> Usable(bearer, now) && r.value.email == Subject(bearer, now)
    ensures Valid(db) && r.Ok? ==> r.value.id in db.users && db.users[r.value.id] == r.value
    ensures Valid(db) && Usable(bearer, now) ==>
      forall k :: k in db.users && db.users[k].email == Subject(bearer, now) ==> r == Ok(db.users[k])
  {
    match bearer
    case None => Err(NotAuthenticated)
    case Some(token) =>
      match DecodeAccessToken(token, now)
      case Err(_) => Err(CredentialsError)
      case Ok(claims) =>
        if claims.sub.None? then Err(CredentialsError)
        else if claims.permissions.None? then Err(CredentialsError)
        else
          match UserCrud.GetUserByEmail(db, claims.sub.value)
          case None => Err(CredentialsError)
          case Some(u) => Ok(u)
  }

  /** Passes an active user through unchanged; an inactive one gets 400. */
  function RequireActive(u: User): (r: Result<User, Error>)
    ensures r.Ok? <==> u.isActive
    ensures r.Ok? ==> r.value == u
    ensures r.Err? ==> r.error == InactiveUser
  {
    if !u.isActive then Err(InactiveUser) else Ok(u)
  }

  /** Passes a superuser through unchanged; anyone else gets 403. */
  function RequireSuperuser(u: User): (r: Result<User, Error>)
    ensures r.Ok? <==> u.isSuperuser
    ensures r.Ok? ==> r.value == u
    ensures r.Err? ==> r.error == NotEnoughPrivileges
  {
    if !u.isSuperuser then Err(NotEnoughPrivileges) else Ok(u)
  }

  /** The resolved user, who must be active. Resolution failures come first and keep their 401. */
  function GetCurrentActiveUser(db: Db, bearer: Option<Token>, now: int): (r: Result<User, Error>)
    ensures GetCurrentUser(db, bearer, now).Err? ==> r == GetCurrentUser(db, bearer, now)
    ensures GetCurrentUser(db, bearer, now).Ok? ==>
      r == (if GetCurrentUser(db, bearer, now).value.isActive
            then GetCurrentUser(db, bearer, now) else Err(InactiveUser))
  {
    var u :- GetCurrentUser(db, bearer, now);
    RequireActive(u)
  }

  /** The resolved user, who must be a superuser. This gate builds on resolution alone, so it
      never looks at `isActive`. */
  function GetCurrentActiveSuperuser(db: Db, bearer: Option<Token>, now: int): (r: Result<User, Error>)
    ensures GetCurrentUser(db, bearer, now).Err? ==> r == GetCurrentUser(db, bearer, now)
    ensures GetCurrentUser(db, bearer, now).Ok? ==>
      r == (if GetCurrentUser(db, bearer, now).value.isSuperuser
            then GetCurrentUser(db, bearer, now) else Err(NotEnoughPrivileges))
  {
    var u :- GetCurrentUser(db, bearer, now);
    RequireSuperuser(u)
  }

  /** An inactive superuser is refused by the active gate yet passes the superuser gate. */
  lemma InactiveSuperuserPassesSuperuserGate(db: Db, bearer: Option<Token>, now: int)
    requires GetCurrentUser(db, bearer, now).Ok?
    requires !GetCurrentUser(db, bearer, now).value.isActive
    requires GetCurrentUser(db, bearer, now).value.isSuperuser
    ensures GetCurrentActiveUser(db, bearer, now) == Err(InactiveUser)
    ensures GetCurrentActiveSuperuser(db, bearer, now) == GetCurrentUser(db, bearer, now)
  {
  }

  /** Two tokens that differ only in the value of their `permissions` claim resolve alike. */
  lemma PermissionsValueIrrelevant(db: Db, sub: Option<string>, p1: string, p2: string, exp: Option<int>, now: int)
    ensures GetCurrentUser(db, Some(Encode(Claims(sub, Some(p1), exp), SecretKey, Algorithm)), now)
         == GetCurrentUser(db, Some(Encode(Claims(sub, Some(p2), exp), SecretKey, Algorithm)), now)
  {
  }

  /** The user with this email whose password verifies against the stored digest, or `None`
      (the program's `False`) when there is no such user or the password is wrong. */
  function AuthenticateUser(db: Db, email: string, password: string, ctx: PasswordContext): (r: Option<User>)
    ensures r.Some? ==> r.value.email == email && ctx.verify(password, r.value.hashedPassword)
    ensures Valid(db) && r.Some? ==> r.value.id in db.users && db.users[r.value.id] == r.value
    ensures Valid(db) ==> forall k :: k in db.users && db.users[k].email == email ==>
      (r.Some? <==> ctx.verify(password, db.users[k].hashedPassword))
    ensures Valid(db) && !UserCrud.EmailUsed(db, email, None) ==> r.None?
  {
    var found := UserCrud.GetUserByEmail(db, email);
    assert Valid(db) ==> (found.Some? <==> UserCrud.EmailUsed(db, email, None)) by {
      if Valid(db) { UserCrud.LookupFindsUsedEmail(db, email); }
    }
    match found
    case None => None
    case Some(u) => if !ctx.verify(password, u.hashedPassword) then None else Some(u)
  }

  /** Creates an active, non-superuser account for a new email; an email already in use yields
      `None` (the program's `False`) and no change. */
  function SignUpNewUser(db: Db, email: string, password: string, ctx: PasswordContext): (r: Stored<Option<User>>)
    ensures Valid(db) ==> Valid(r.db)
    ensures Valid(db) ==> (r.out.None? <==> UserCrud.EmailUsed(db, email, None))
    ensures r.out.None? ==> r.db == db
    ensures r.out.Some? ==> var u := r.out.value;
      && u.email == email && u.isActive && !u.isSuperuser
      && u.hashedPassword == ctx.hash(password)
      && u.id == db.nextUserId
      && r.db.users == db.users[u.id := u] && r.db.topics == db.topics
    ensures Valid(db) && r.out.Some? ==> r.out.value.id !in db.users
  {
    if UserCrud.GetUserByEmail(db, email).Some? then
      assert Valid(db) ==> UserCrud.EmailUsed(db, email, None) by {
        if Valid(db) { UserCrud.LookupFindsUsedEmail(db, email); }
      }
      Stored(None, db)
    else
      var created := UserCrud.CreateUser(db, UserCrud.UserCreate(email, password, true, false, None, None), ctx);
      assert Valid(db) ==> !UserCrud.EmailUsed(db, email, None) by {
        if Valid(db) { UserCrud.LookupFindsUsedEmail(db, email); }
      }
      match created.out
      case Err(_) => Stored(None, db)
      case Ok(u) => Stored(Some(u), created.db)
  }
}

=== FILE: auth_routes.dfy ===
/** The two credential-issuing routes, `POST /token` (login) and `POST /signup`: the mapping of
    authentication outcomes to HTTP errors and the claims of the token they issue. */
module AuthRoutes {
  import opened Wrappers
  import opened Models
  import opened Security
  import UserCrud
  import Auth

  const IncorrectCredentials := HttpError(401, "Incorrect username or password", true)
  const AccountExists := HttpError(409, "Account already exists", true)

  /** The body of a successful login or signup. */
  datatype TokenResponse = TokenResponse(accessToken: Token, tokenType: string)

  /** Lifetime of the tokens these routes issue, in seconds. */
  const AccessTokenLifetime := AccessTokenExpireMinutes * SecondsPerMinute

  /** The permission level recorded in the token: "admin" for superusers, "user" otherwise. */
  function PermissionFor(u: User): (p: string)
    ensures p == "admin" <==> u.isSuperuser
    ensures p == "user" <==> !u.isSuperuser
  {
    if u.isSuperuser then "admin" else "user"
  }

  /** The claims a token issued to `u` at `now` carries. */
  function IssuedClaims(u: User, now: int): Claims
  {
    Claims(Some(u.email), Some(PermissionFor(u)), Some(now + AccessTokenLifetime))
  }

  /** The response for user `u` at `now`: a bearer token naming `u`'s email and permission
      level that decodes for the next 30 minutes and not after. */
  function IssueToken(u: User, now: int): (r: TokenResponse)
    ensures r.tokenType == "bearer"
    ensures forall later :: now <= later < now + AccessTokenLifetime ==>
      DecodeAccessToken(r.accessToken, later) == Ok(IssuedClaims(u, now))
    ensures forall later :: now + AccessTokenLifetime <= later ==>
      DecodeAccessToken(r.accessToken, later) == Err(ExpiredSignature)
  {
    var data := Claims(Some(u.email), Some(PermissionFor(u)), None);
    var t := CreateAccessToken(data, Some(AccessTokenLifetime), now);
    assert t.claims == IssuedClaims(u, now);
    TokenResponse(t, "bearer")
  }

  /** Logs in with form fields `username` (the email) and `password`: 401 with a Bearer
      challenge exactly when authentication fails, otherwise a token for the stored user. */
  function Login(db: Db, username: string, password: string, ctx: PasswordContext, now: int): (r: Result<TokenResponse, Error>)
    ensures r.Err? <==> Auth.AuthenticateUser(db, username, password, ctx).None?
    ensures r.Err? ==> r.error == IncorrectCredentials
    ensures r.Ok? ==> var u := Auth.AuthenticateUser(db, username, password, ctx).value;
      && r.value.tokenType == "bearer"
      && u.email == username
      && DecodeAccessToken(r.value.accessToken, now) == Ok(IssuedClaims(u, now))
  {
    match Auth.AuthenticateUser(db, username, password, ctx)
    case None => Err(IncorrectCredentials)
    case Some(u) => Ok(IssueToken(u, now))
  }

  /** Signs up with form fields `username` (the email) and `password`: 409 with a Bearer
      challenge and no change when the email is taken, otherwise a new active, non-superuser
      account and a token for it, whose permission level is therefore always "user". */
  function Signup(db: Db, username: string, password: string, ctx: PasswordContext, now: int): (r: Stored<Result<TokenResponse, Error>>)
    ensures Valid(db) ==> Valid(r.db)
    ensures Valid(db) ==> (r.out.Err? <==> UserCrud.EmailUsed(db, username, None))
    ensures r.out.Err? ==> r.out.error == AccountExists && r.db == db
    ensures r.out.Ok? ==> var id := db.nextUserId;
      && id in r.db.users
      && r.db.users[id].email == username
      && r.db.users[id].hashedPassword == ctx.hash(password)
      && r.db.users[id].isActive && !r.db.users[id].isSuperuser
      && r.out.value.tokenType == "bearer"
      && DecodeAccessToken(r.out.value.accessToken, now) ==
           Ok(Claims(Some(username), Some("user"), Some(now + AccessTokenLifetime)))
  {
    var signed := Auth.SignUpNewUser(db, username, password, ctx);
    match signed.out
    case None => Stored(Err(AccountExists), db)
    case Some(u) => Stored(Ok(IssueToken(u, now)), signed.db)
  }
}

=== FILE: like.dfy ===
/** SQL `LIKE` matching with `\` as the escape character, as the keyword search uses it:
    `%` matches any run of characters, `_` any one character, and `\` makes the character after
    it literal. Matching is case-sensitive, as in PostgreSQL. */
module Like {

  /** `s` matches pattern `p`. A `\` that ends the pattern is taken literally; the search never
      builds such a pattern, as its patterns always end in `%`. */
  predicate Like(s: string, p: string)
    decreases |s| + |p|
  {
    if p == [] then s == []
    else if p[0] == '%' then Like(s, p[1..]) || (s != [] && Like(s[1..], p))
    else if p[0] == '\\' && |p| >= 2 then s != [] && s[0] == p[1] && Like(s[1..], p[2..])
    else if p[0] == '_' then s != [] && Like(s[1..], p[1..])
    else s != [] && s[0] == p[0] && Like(s[1..], p[1..])
  }

  /** `k` occurs in `s` as a contiguous run of characters. */
  predicate Contains(s: string, k: string)
  {
    k <= s || (s != [] && Contains(s[1..], k))
  }

  /** No character of `k` is special to `LIKE`. */
  predicate Plain(k: string)
  {
    forall i :: 0 <= i < |k| ==> k[i] != '%' && k[i] != '_' && k[i] != '\\'
  }

  /** The pattern the keyword search builds: the keyword with its first character escaped,
      surrounded by `%`. */
  function KeywordPattern(k: string): string
  {
    "%\\" + k + "%"
  }

  /** A trailing `%` matches every remainder. */
  lemma {:induction false} PercentMatchesAll(s: string)
    ensures Like(s, "%")
    decreases |s|
  {
    if s != [] {
      PercentMatchesAll(s[1..]);
    }
  }

  /** A plain literal followed by `%` matches exactly the strings it is a prefix of. */
  lemma {:induction false} LiteralThenPercent(s: string, r: string)
    requires Plain(r)
    ensures Like(s, r + "%") <==> r <= s
    decreases |r|
  {
    if r == [] {
      assert r + "%" == "%";
      PercentMatchesAll(s);
    } else {
      assert (r + "%")[1..] == r[1..] + "%";
      if s != [] {
        LiteralThenPercent(s[1..], r[1..]);
      }
    }
  }

  /** With its first character escaped, a keyword whose remaining characters are plain matches
      exactly the strings it is a prefix of. */
  lemma EscapedPrefix(s: string, k: string)
    requires k != [] && Plain(k[1..])
    ensures Like(s, "\\" + k + "%") <==> k <= s
  {
    var p := "\\" + k + "%";
    assert p[0] == '\\' && p[1] == k[0];
    assert p[2..] == k[1..] + "%";
    if s != [] {
      LiteralThenPercent(s[1..], k[1..]);
    }
  }

  /** For a non-empty keyword whose characters after the first are plain, the keyword search is
      substring containment. */
  lemma {:induction false} KeywordIsSubstring(s: string, k: string)
    requires k != [] && Plain(k[1..])
    ensures Like(s, KeywordPattern(k)) <==> Contains(s, k)
    decreases |s|
  {
    var q := "\\" + k + "%";
    assert KeywordPattern(k) == "%" + q;
    assert ("%" + q)[1..] == q;
    EscapedPrefix(s, k);
    if s != [] {
      KeywordIsSubstring(s[1..], k);
    }
  }

  /** The empty keyword escapes the closing `%`, so the search for it finds only texts that
      end in a literal `%`, and in particular not the empty text. */
  lemma {:induction false} EmptyKeywordFindsTrailingPercent(s: string)
    ensures Like(s, KeywordPattern("")) <==> (s != [] && s[|s| - 1] == '%')
    decreases |s|
  {
    var p := KeywordPattern("");
    assert p == "%\\%";
    assert p[1..] == "\\%";
    assert p[1..][2..] == "";
    if s != [] {
      EmptyKeywordFindsTrailingPercent(s[1..]);
      assert Like(s, p) == (Like(s, p[1..]) || Like(s[1..], p));
      assert Like(s, p[1..]) == (s[0] == '%' && s[1..] == []);
      if |s| >= 2 {
        assert s[1..][|s| - 2] == s[|s| - 1];
      }
    }
  }
}

=== FILE: models.dfy ===
/** The two tables the core reads and writes (`user` and `topic`), the invariant the database
    keeps on them, and the errors an operation can end in. */
module Models {
  import opened Wrappers
  import Ordered

  /** A row of the `user` table. `hashedPassword` is the password context's digest; the
      plaintext is never stored. */
  datatype User = User(
    id: int,
    email: string,
    firstName: Option<string>,
    lastName: Option<string>,
    hashedPassword: string,
    isActive: bool,
    isSuperuser: bool)

  /** A row of the `topic` table. `body` is the column named `topic`; `postDate` is a day
      number; `isVisible` is false once the topic has been (softly) deleted. */
  datatype Topic = Topic(
    id: int,
    body: string,
    pictureUrl: Option<string>,
    postDate: int,
    isVisible: bool,
    isAdopted: bool,
    contributorId: int)

  /** The database: both tables keyed by primary key, and the next value of each table's
      serial id sequence. */
  datatype Db = Db(
    users: map<int, User>,
    topics: map<int, Topic>,
    nextUserId: int,
    nextTopicId: int)

  /** The database with no rows, both sequences starting at 1. */
  const EmptyDb := Db(map[], map[], 1, 1)

  /** A fresh database satisfies the invariant every write preserves. */
  lemma EmptyDbValid()
    ensures Valid(EmptyDb)
  {
  }

  /** No two users share an email (the unique index on `user.email`). */
  predicate UniqueEmails(users: map<int, User>)
  {
    forall a, b :: a in users && b in users && users[a].email == users[b].email ==> a == b
  }

  /** What the database guarantees of every committed state: each row sits under its own id,
      every id was drawn from its sequence, and emails are unique. */
  predicate Valid(db: Db)
  {
    && 1 <= db.nextUserId
    && 1 <= db.nextTopicId
    && (forall k :: k in db.users ==> db.users[k].id == k && k < db.nextUserId)
    && (forall k :: k in db.topics ==> db.topics[k].id == k && k < db.nextTopicId)
    && (forall k :: k in db.users ==> 1 <= k)
    && (forall k :: k in db.topics ==> 1 <= k)
    && UniqueEmails(db.users)
  }

  /** How a request ends when it does not succeed: an HTTP error raised by the code (with the
      `WWW-Authenticate: Bearer` challenge header when `challenge` holds), or a constraint the
      database refused at commit. */
  datatype Error =
    | HttpError(status: int, detail: string, challenge: bool)
    | IntegrityError(constraint: string)

  /** The result of an operation that may write, together with the database after it. */
  datatype Stored<T> = Stored(out: T, db: Db)

  /** The unique index on `user.email` refused a write. */
  const EmailTaken := IntegrityError("user.email")

  /** Every user, by ascending id. */
  function UserRows(db: Db): (r: seq<User>)
    ensures Valid(db) ==> forall i :: 0 <= i < |r| ==> r[i].id in db.users && db.users[r[i].id] == r[i]
    ensures Valid(db) ==> forall k :: k in db.users ==> db.users[k] in r
    ensures Valid(db) ==> Ordered.SortedBy(r, (u: User) => u.id)
  {
    Ordered.RowsBetweenCovers(db.users, 1, db.nextUserId);
    Ordered.RowsBetween(db.users, 1, db.nextUserId)
  }

  /** Every topic, visible or not, by ascending id. */
  function TopicRows(db: Db): (r: seq<Topic>)
    ensures Valid(db) ==> forall i :: 0 <= i < |r| ==> r[i].id in db.topics && db.topics[r[i].id] == r[i]
    ensures Valid(db) ==> forall k :: k in db.topics ==> db.topics[k] in r
    ensures Valid(db) ==> Ordered.SortedBy(r, (t: Topic) => t.id)
  {
    Ordered.RowsBetweenCovers(db.topics, 1, db.nextTopicId);
    Ordered.RowsBetween(db.topics, 1, db.nextTopicId)
  }
}

=== FILE: ordered.dfy ===
/** Ordered views of tables keyed by serial ids. A listing query without ORDER BY returns rows in
    the database's own order; this model fixes that order to ascending primary key. */
module Ordered {

  /** The elements of `s` strictly increase under `key`. */
  ghost predicate SortedBy<T>(s: seq<T>, key: T -> int)
  {
    forall i, j :: 0 <= i < j < |s| ==> key(s[i]) < key(s[j])
  }

  /** The keys of `m` that lie in `[lo, hi)`, ascending, each once. */
  function KeysBetween<T>(m: map<int, T>, lo: int, hi: int): (ks: seq<int>)
    ensures forall i :: 0 <= i < |ks| ==> lo <= ks[i] < hi && ks[i] in m
    ensures forall k :: lo <= k < hi && k in m ==> k in ks
    ensures SortedBy(ks, (k: int) => k)
    decreases hi - lo
  {
    if hi <= lo then []
    else if lo in m then [lo] + KeysBetween(m, lo + 1, hi)
    else KeysBetween(m, lo + 1, hi)
  }

  /** The rows of `m` whose keys lie in `[lo, hi)`, listed by ascending key. */
  function RowsBetween<T>(m: map<int, T>, lo: int, hi: int): (r: seq<T>)
    ensures |r| == |KeysBetween(m, lo, hi)|
    ensures forall i :: 0 <= i < |r| ==> r[i] == m[KeysBetween(m, lo, hi)[i]]
  {
    var ks := KeysBetween(m, lo, hi);
    seq(|ks|, i requires 0 <= i < |ks| => m[ks[i]])
  }

  /** Every row whose key lies in `[lo, hi)` appears in the listing of that range. */
  lemma RowsBetweenCovers<T>(m: map<int, T>, lo: int, hi: int)
    ensures forall k :: lo <= k < hi && k in m ==> m[k] in RowsBetween(m, lo, hi)
  {
    var ks := KeysBetween(m, lo, hi);
    var r := RowsBetween(m, lo, hi);
    forall k | lo <= k < hi && k in m
      ensures m[k] in r
    {
      var i :| 0 <= i < |ks| && ks[i] == k;
      assert r[i] == m[k];
    }
  }

  /** The elements of `s` that `keep` accepts, in their original order. */
  function Filter<T>(s: seq<T>, keep: T -> bool): (r: seq<T>)
    ensures |r| <= |s|
    ensures forall i :: 0 <= i < |r| ==> keep(r[i]) && r[i] in s
    ensures forall i :: 0 <= i < |s| && keep(s[i]) ==> s[i] in r
  {
    if s == [] then []
    else (if keep(s[0]) then [s[0]] else []) + Filter(s[1..], keep)
  }

  /** Selecting with `p` and then with `q` is selecting once with their conjunction: the
      narrower listing is exactly the wider listing filtered further, order included. */
  lemma {:induction false} FilterFuse<T>(s: seq<T>, p: T -> bool, q: T -> bool, both: T -> bool)
    requires forall x :: both(x) == (p(x) && q(x))
    ensures Filter(Filter(s, p), q) == Filter(s, both)
  {
    if s != [] {
      FilterFuse(s[1..], p, q, both);
      if p(s[0]) {
        assert Filter(s, p) == [s[0]] + Filter(s[1..], p);
        assert Filter(s, p)[1..] == Filter(s[1..], p);
      } else {
        assert Filter(s, p) == Filter(s[1..], p);
      }
    }
  }

  /** Filtering keeps the order of what it keeps. */
  lemma {:induction false} FilterKeepsOrder<T>(s: seq<T>, keep: T -> bool, key: T -> int)
    requires SortedBy(s, key)
    ensures SortedBy(Filter(s, keep), key)
  {
    if s != [] {
      FilterKeepsOrder(s[1..], keep, key);
    }
  }
}

=== FILE: scenarios.dfy ===
/** End-to-end properties that chain several requests: sign-up followed by login, a token
    followed by resolution, account changes between issuing and using a token, and the
    ownership rules of the soft delete. */
module Scenarios {
  import opened Wrappers
  import opened Models
  import opened Security
  import UserCrud
  import TopicCrud
  import Auth
  import AuthRoutes

  /** After a successful sign-up, logging in with the same email and password succeeds, at any
      later time, for a token naming that email. */
  lemma SignUpThenLogin(db: Db, email: string, password: string, ctx: PasswordContext, now: int, later: int)
    requires Valid(db) && Sound(ctx)
    requires !UserCrud.EmailUsed(db, email, None)
    ensures var s := AuthRoutes.Signup(db, email, password, ctx, now);
      && s.out.Ok?
      && AuthRoutes.Login(s.db, email, password, ctx, later).Ok?
      && DecodeAccessToken(AuthRoutes.Login(s.db, email, password, ctx, later).value.accessToken, later).value.sub
         == Some(email)
  {
    var s := AuthRoutes.Signup(db, email, password, ctx, now);
    var id := db.nextUserId;
    assert s.db.users[id].email == email;
    assert ctx.verify(password, ctx.hash(password));
    var a := Auth.AuthenticateUser(s.db, email, password, ctx);
    assert a == Some(s.db.users[id]);
  }

  /** Once an email has signed up, every further sign-up with it is refused with 409 and changes
      nothing, whatever the password. */
  lemma SecondSignUpConflicts(db: Db, email: string, p1: string, p2: string, ctx: PasswordContext, now: int, later: int)
    requires Valid(db)
    requires AuthRoutes.Signup(db, email, p1, ctx, now).out.Ok?
    ensures var s := AuthRoutes.Signup(db, email, p1, ctx, now);
      AuthRoutes.Signup(s.db, email, p2, ctx, later) == Stored(Err(AuthRoutes.AccountExists), s.db)
  {
    var s := AuthRoutes.Signup(db, email, p1, ctx, now);
    var id := db.nextUserId;
    assert id in s.db.users && Some(id) != None && s.db.users[id].email == email;
    assert UserCrud.EmailUsed(s.db, email, None);
  }

  /** A login token resolves to the stored account for the 30 minutes after issue, and is
      refused with 401 from then on. */
  lemma LoginTokenResolvesUntilExpiry(db: Db, email: string, password: string, ctx: PasswordContext, now: int, later: int)
    requires Valid(db)
    requires AuthRoutes.Login(db, email, password, ctx, now).Ok?
    requires now <= later
    ensures var token := AuthRoutes.Login(db, email, password, ctx, now).value.accessToken;
      var u := Auth.AuthenticateUser(db, email, password, ctx).value;
      Auth.GetCurrentUser(db, Some(token), later) ==
        if later < now + AuthRoutes.AccessTokenLifetime then Ok(u) else Err(Auth.CredentialsError)
  {
    var token := AuthRoutes.Login(db, email, password, ctx, now).value.accessToken;
    var u := Auth.AuthenticateUser(db, email, password, ctx).value;
    if later < now + AuthRoutes.AccessTokenLifetime {
      assert Auth.Usable(Some(token), later);
      assert u.id in db.users && db.users[u.id].email == Auth.Subject(Some(token), later);
    }
  }

  /** A token issued with a negative lifetime is already expired and never resolves, at the
      instant of issue or any time after. */
  lemma NegativeLifetimeRejected(db: Db, data: Claims, d: int, now: int, later: int)
    requires d < 0 && now <= later
    ensures Auth.GetCurrentUser(db, Some(CreateAccessToken(data, Some(d), now)), later) == Err(Auth.CredentialsError)
  {
  }

  /** A token whose claims were altered after signing is refused with 401. */
  lemma TamperedTokenRejected(db: Db, c: Claims, forged: Claims, now: int)
    requires forged != c
    ensures Auth.GetCurrentUser(db, Some(Jws(Algorithm, forged, Encode(c, SecretKey, Algorithm).mac)), now)
         == Err(Auth.CredentialsError)
  {
    TamperedClaimsRejected(c, SecretKey, Algorithm, forged, now);
  }

  /** The token is advisory: once its account is deleted, a token that still decodes resolves to
      401. */
  lemma DeletedAccountRejected(db: Db, id: int, bearer: Option<Token>, now: int)
    requires Valid(db) && id in db.users
    requires Auth.Usable(bearer, now) && Auth.Subject(bearer, now) == db.users[id].email
    ensures Auth.GetCurrentUser(db, bearer, now) == Ok(db.users[id])
    ensures Auth.GetCurrentUser(UserCrud.DeleteUser(db, id).db, bearer, now) == Err(Auth.CredentialsError)
  {
    var after := UserCrud.DeleteUser(db, id).db;
    var r := Auth.GetCurrentUser(after, bearer, now);
    if r.Ok? {
      var k := r.value.id;
      assert k in db.users && k != id;
      assert db.users[k].email == db.users[id].email;
    }
  }

  /** Deactivating an account takes effect on the next request: its still-valid token resolves,
      but the active gate answers 400. */
  lemma DeactivatedAccountRejected(db: Db, id: int, body: UserCrud.UserEdit, ctx: PasswordContext, bearer: Option<Token>, now: int)
    requires Valid(db) && id in db.users
    requires body.email == db.users[id].email && body.isActive == Set(false)
    requires Auth.Usable(bearer, now) && Auth.Subject(bearer, now) == db.users[id].email
    ensures var after := UserCrud.EditUser(db, id, body, ctx).db;
      Auth.GetCurrentActiveUser(after, bearer, now) == Err(Auth.InactiveUser)
  {
    var edit := UserCrud.EditUser(db, id, body, ctx);
    assert !UserCrud.EmailUsed(db, body.email, Some(id));
    assert edit.out.Ok?;
    assert edit.db.users[id].email == Auth.Subject(bearer, now);
  }

  /** Without a bearer header every gated request is refused with 401. */
  lemma AnonymousRejected(db: Db, now: int)
    ensures Auth.GetCurrentActiveUser(db, None, now) == Err(Auth.NotAuthenticated)
    ensures Auth.GetCurrentActiveSuperuser(db, None, now) == Err(Auth.NotAuthenticated)
  {
  }

  /** User `a` posts a topic. Another user `b` who is not a superuser cannot drop it: 403, and
      the topic stays visible. A superuser `c` can: the topic is hidden and leaves the visible
      listing. */
  lemma OwnershipOfDrop(db: Db, body: TopicCrud.TopicCreate, a: User, b: User, c: User, today: int)
    requires Valid(db)
    requires b.id != a.id && !b.isSuperuser && c.isSuperuser
    ensures var created := TopicCrud.CreateTopic(db, body, Some(a), today);
      var t := created.out.value;
      && created.out.Ok?
      && TopicCrud.DropTopic(created.db, t.id, Some(b)) == Stored(Err(TopicCrud.NoPermission), created.db)
      && created.db.topics[t.id].isVisible
      && var dropped := TopicCrud.DropTopic(created.db, t.id, Some(c));
         && dropped.out.Ok?
         && !dropped.db.topics[t.id].isVisible
         && forall i :: 0 <= i < |TopicCrud.GetTopics(dropped.db)| ==> TopicCrud.GetTopics(dropped.db)[i].id != t.id
  {
    var created := TopicCrud.CreateTopic(db, body, Some(a), today);
    var t := created.out.value;
    TopicCrud.DroppedTopicHidden(created.db, t.id, Some(c));
  }
}

=== FILE: security.dfy ===
/** Password hashing and the access-token codec.

    The password context (bcrypt through passlib in the program) is kept abstract: a pair of
    function values, `hash` and `verify`, about which only `Sound` is ever assumed.

    The access token is a JSON Web Token (RFC 7519) signed with HMAC SHA-256 ("HS256",
    section 3.2 of RFC 7518). It is modelled symbolically: a token carries its header
    algorithm, its claims, and a message authentication code that records the key, the
    algorithm and the exact claims it was computed over. Recomputing the code is the only way
    to check it, so a token whose claims were altered, or that was signed under another key or
    algorithm, does not verify. Malformed input that does not even parse is its own case. */
module Security {
  import opened Wrappers

  /** The process-wide signing secret, the signing algorithm, and the lifetime of the tokens
      the login and signup routes issue. */
  const SecretKey: string := "super_secret"
  const Algorithm: string := "HS256"
  const AccessTokenExpireMinutes: int := 30

  /** Lifetime used when the caller passes no (or a zero) lifetime. */
  const DefaultExpireMinutes: int := 15

  /** Times are whole seconds since the epoch, as the `exp` claim stores them. */
  const SecondsPerMinute: int := 60

  /** A password hashing context: `hash` produces an opaque digest, `verify` checks a plaintext
      against a digest. */
  datatype PasswordContext = PasswordContext(
    hash: string -> string,
    verify: (string, string) -> bool)

  /** A context is sound when every password verifies against its own digest. */
  ghost predicate Sound(ctx: PasswordContext)
  {
    forall p :: ctx.verify(p, ctx.hash(p))
  }

  /** The claims the core reads and writes: `sub` (the account email), `permissions`
      ("admin" or "user") and `exp` (expiry, in seconds). An absent claim is `None`. */
  datatype Claims = Claims(sub: Option<string>, permissions: Option<string>, exp: Option<int>)

  /** The symbolic message authentication code over a token's header algorithm and claims. */
  datatype Mac = Mac(key: string, alg: string, claims: Claims)

  /** A bearer credential as presented by a client. */
  datatype Token =
    | Jws(alg: string, claims: Claims, mac: Mac)
    | Malformed(raw: string)

  /** Why decoding refused a token. The resolver maps all of them to one 401. */
  datatype DecodeError = DecodeFailure | InvalidAlgorithm | InvalidSignature | ExpiredSignature

  /** Signs `claims` under `key` with algorithm `alg`. */
  function Encode(claims: Claims, key: string, alg: string): (t: Token)
    ensures t.Jws? && t.claims == claims && t.alg == alg
  {
    Jws(alg, claims, Mac(key, alg, claims))
  }

  /** Parses and verifies a token at time `now`: the header algorithm must be one of
      `algorithms`, the code must verify under `key`, and an `exp` claim, when present, must
      lie strictly after `now`. */
  function Decode(t: Token, key: string, algorithms: seq<string>, now: int): (r: Result<Claims, DecodeError>)
    ensures r.Ok? ==> t.Jws? && t.alg in algorithms && t == Encode(r.value, key, t.alg)
    ensures r.Ok? && r.value.exp.Some? ==> now < r.value.exp.value
    ensures t.Jws? && t.alg in algorithms && t.mac == Mac(key, t.alg, t.claims) && t.claims.exp.None? ==> r == Ok(t.claims)
    ensures t.Jws? && t.alg in algorithms && t.mac == Mac(key, t.alg, t.claims) && t.claims.exp.Some? ==>
      (r.Ok? <==> now < t.claims.exp.value)
  {
    match t
    case Malformed(_) => Err(DecodeFailure)
    case Jws(alg, claims, mac) =>
      if alg !in algorithms then Err(InvalidAlgorithm)
      else if mac != Mac(key, alg, claims) then Err(InvalidSignature)
      else if claims.exp.Some? && claims.exp.value <= now then Err(ExpiredSignature)
      else Ok(claims)
  }

  /** How the core decodes: with the process secret, accepting only the process algorithm. */
  function DecodeAccessToken(t: Token, now: int): Result<Claims, DecodeError>
  {
    Decode(t, SecretKey, [Algorithm], now)
  }

  /** The expiry instant for a token issued at `now`. A lifetime (in seconds) is used when it is
      given and non-zero, as a `timedelta` is falsy exactly when it is zero; otherwise the
      default of 15 minutes applies. A negative lifetime yields a token that is already expired. */
  function ExpiryOf(expiresDelta: Option<int>, now: int): (exp: int)
    ensures expiresDelta.Some? && expiresDelta.value != 0 ==> exp - now == expiresDelta.value
    ensures expiresDelta.None? || expiresDelta.value == 0 ==> exp - now == DefaultExpireMinutes * SecondsPerMinute
  {
    match expiresDelta
    case Some(d) => if d != 0 then now + d else now + DefaultExpireMinutes * SecondsPerMinute
    case None => now + DefaultExpireMinutes * SecondsPerMinute
  }

  /** Issues an access token at `now` carrying the caller's claims plus `exp`. The caller's
      claims are a value and are not changed; an `exp` they already carry is replaced. */
  function CreateAccessToken(data: Claims, expiresDelta: Option<int>, now: int): (t: Token)
    ensures t.Jws? && t == Encode(t.claims, SecretKey, Algorithm)
    ensures t.claims.sub == data.sub && t.claims.permissions == data.permissions
    ensures t.claims.exp == Some(ExpiryOf(expiresDelta, now))
    ensures forall later :: now <= later ==>
      (DecodeAccessToken(t, later).Ok? <==> later < ExpiryOf(expiresDelta, now))
  {
    Encode(data.(exp := Some(ExpiryOf(expiresDelta, now))), SecretKey, Algorithm)
  }

  /** Decoding undoes encoding: a token this issuer signed decodes to exactly its claims for as
      long as it has not expired. */
  lemma DecodeEncode(c: Claims, now: int)
    requires c.exp.None? || now < c.exp.value
    ensures DecodeAccessToken(Encode(c, SecretKey, Algorithm), now) == Ok(c)
  {
  }

  /** A token whose claims were altered after signing does not decode, whatever the time. */
  lemma TamperedClaimsRejected(c: Claims, key: string, alg: string, forged: Claims, now: int)
    requires forged != c
    ensures DecodeAccessToken(Jws(alg, forged, Encode(c, key, alg).mac), now) ==
      (if alg == Algorithm then Err(InvalidSignature) else Err(InvalidAlgorithm))
  {
  }

  /** A token signed under any other secret does not decode, whatever its claims and time. */
  lemma ForeignKeyRejected(c: Claims, key: string, now: int)
    requires key != SecretKey
    ensures DecodeAccessToken(Encode(c, key, Algorithm), now) == Err(InvalidSignature)
  {
  }
}

=== FILE: topic_crud.dfy ===
/** Reads and writes on the `topic` table, with the ownership checks that gate edits and
    (soft) deletes. Every write returns the database after it; a write that fails returns the
    database it was given. */
module TopicCrud {
  import opened Wrappers
  import opened Models
  import Ordered
  import Like

  const TopicNotFound := HttpError(404, "Topic not found", false)
  const LoginRequired := HttpError(401, "Login required", false)
  const NotContributor := HttpError(403, "You are not contributor", false)
  const NoPermission := HttpError(403, "You don't have permission", false)

  /** The fields of a create request. Only `body` and `pictureUrl` are used: the date, the
      flags and the contributor come from the server. */
  datatype TopicCreate = TopicCreate(
    body: string,
    pictureUrl: Option<string>,
    postDate: int,
    isVisible: bool,
    isAdopted: bool,
    contributorId: int)

  /** The fields of an edit request. `body`, `postDate` and `contributorId` are required by the
      schema and so are always part of the update; the others only when the client set them. */
  datatype TopicEdit = TopicEdit(
    body: string,
    pictureUrl: Patch<Option<string>>,
    postDate: int,
    isVisible: Patch<bool>,
    isAdopted: Patch<bool>,
    contributorId: int)

  /** `r` lists exactly the stored topics that `keep` accepts, each as stored, by ascending id. */
  ghost predicate Selects(db: Db, r: seq<Topic>, keep: Topic -> bool)
  {
    && (forall i :: 0 <= i < |r| ==> r[i].id in db.topics && db.topics[r[i].id] == r[i] && keep(r[i]))
    && (forall k :: k in db.topics && keep(db.topics[k]) ==> db.topics[k] in r)
    && Ordered.SortedBy(r, (t: Topic) => t.id)
  }

  /** The stored topics that `keep` accepts, by ascending id. */
  function Select(db: Db, keep: Topic -> bool): (r: seq<Topic>)
    ensures Valid(db) ==> Selects(db, r, keep)
  {
    var rows := TopicRows(db);
    var r := Ordered.Filter(rows, keep);
    assert Valid(db) ==> Ordered.SortedBy(r, (t: Topic) => t.id) by {
      if Valid(db) {
        Ordered.FilterKeepsOrder(rows, keep, (t: Topic) => t.id);
      }
    }
    r
  }

  /** The keyword search: the topic text matches `%\<keyword>%` under `LIKE` with `\` as escape. */
  predicate MatchesKeyword(t: Topic, keyword: string)
  {
    Like.Like(t.body, Like.KeywordPattern(keyword))
  }

  /** The topic with id `id`, visible or not, or 404. */
  function GetTopic(db: Db, id: int): (r: Result<Topic, Error>)
    ensures r.Ok? <==> id in db.topics
    ensures r.Ok? ==> r.value == db.topics[id]
    ensures r.Err? ==> r.error == TopicNotFound
  {
    if id in db.topics then Ok(db.topics[id]) else Err(TopicNotFound)
  }

  /** The visible topics. */
  function GetTopics(db: Db): (r: seq<Topic>)
    ensures Valid(db) ==> Selects(db, r, (t: Topic) => t.isVisible)
  {
    Select(db, (t: Topic) => t.isVisible)
  }

  /** Every topic, hidden ones included. */
  function GetAllTopics(db: Db): (r: seq<Topic>)
    ensures Valid(db) ==> Selects(db, r, (t: Topic) => true)
  {
    Select(db, (t: Topic) => true)
  }

  /** The visible topics contributed by user `uid`. */
  function GetTopicsByUser(db: Db, uid: int): (r: seq<Topic>)
    ensures Valid(db) ==> Selects(db, r, (t: Topic) => t.isVisible && t.contributorId == uid)
  {
    Select(db, (t: Topic) => t.isVisible && t.contributorId == uid)
  }

  /** Every topic contributed by user `uid`, hidden ones included. */
  function GetAllTopicsByUser(db: Db, uid: int): (r: seq<Topic>)
    ensures Valid(db) ==> Selects(db, r, (t: Topic) => t.contributorId == uid)
  {
    Select(db, (t: Topic) => t.contributorId == uid)
  }

  /** The visible topics that have been adopted. */
  function GetAdoptedTopics(db: Db): (r: seq<Topic>)
    ensures Valid(db) ==> Selects(db, r, (t: Topic) => t.isVisible && t.isAdopted)
  {
    Select(db, (t: Topic) => t.isVisible && t.isAdopted)
  }

  /** The visible, adopted topics contributed by user `uid`. */
  function GetAdoptedTopicsByUser(db: Db, uid: int): (r: seq<Topic>)
    ensures Valid(db) ==> Selects(db, r, (t: Topic) => t.isVisible && t.contributorId == uid && t.isAdopted)
  {
    Select(db, (t: Topic) => t.isVisible && t.contributorId == uid && t.isAdopted)
  }

  /** The visible topics whose text matches the keyword search. */
  function GetTopicsByKeyword(db: Db, keyword: string): (r: seq<Topic>)
    ensures Valid(db) ==> Selects(db, r, (t: Topic) => t.isVisible && MatchesKeyword(t, keyword))
  {
    Select(db, (t: Topic) => t.isVisible && MatchesKeyword(t, keyword))
  }

  /** Every topic, hidden ones included, whose text matches the keyword search. */
  function GetAllTopicsByKeyword(db: Db, keyword: string): (r: seq<Topic>)
    ensures Valid(db) ==> Selects(db, r, (t: Topic) => MatchesKeyword(t, keyword))
  {
    Select(db, (t: Topic) => MatchesKeyword(t, keyword))
  }

  /** The visible listing is the full listing with hidden topics dropped, order included. */
  lemma VisibleWithinAll(db: Db)
    ensures GetTopics(db) == Ordered.Filter(GetAllTopics(db), (t: Topic) => t.isVisible)
  {
    Ordered.FilterFuse(TopicRows(db), (t: Topic) => true, (t: Topic) => t.isVisible, (t: Topic) => t.isVisible);
  }

  /** A user's visible topics are that user's topics with hidden ones dropped. */
  lemma ByUserWithinAllByUser(db: Db, uid: int)
    ensures GetTopicsByUser(db, uid) ==
      Ordered.Filter(GetAllTopicsByUser(db, uid), (t: Topic) => t.isVisible)
  {
    Ordered.FilterFuse(TopicRows(db), (t: Topic) => t.contributorId == uid, (t: Topic) => t.isVisible,
      (t: Topic) => t.isVisible && t.contributorId == uid);
  }

  /** A user's visible topics are the visible listing restricted to that contributor. */
  lemma ByUserWithinVisible(db: Db, uid: int)
    ensures GetTopicsByUser(db, uid) ==
      Ordered.Filter(GetTopics(db), (t: Topic) => t.contributorId == uid)
  {
    Ordered.FilterFuse(TopicRows(db), (t: Topic) => t.isVisible, (t: Topic) => t.contributorId == uid,
      (t: Topic) => t.isVisible && t.contributorId == uid);
  }

  /** A user's adopted topics are the adopted listing restricted to that contributor. */
  lemma AdoptedByUserWithinAdopted(db: Db, uid: int)
    ensures GetAdoptedTopicsByUser(db, uid) ==
      Ordered.Filter(GetAdoptedTopics(db), (t: Topic) => t.contributorId == uid)
  {
    Ordered.FilterFuse(TopicRows(db), (t: Topic) => t.isVisible && t.isAdopted,
      (t: Topic) => t.contributorId == uid,
      (t: Topic) => t.isVisible && t.contributorId == uid && t.isAdopted);
  }

  /** The visible keyword search is the full keyword search with hidden topics dropped. */
  lemma KeywordWithinAllKeyword(db: Db, keyword: string)
    ensures GetTopicsByKeyword(db, keyword) ==
      Ordered.Filter(GetAllTopicsByKeyword(db, keyword), (t: Topic) => t.isVisible)
  {
    Ordered.FilterFuse(TopicRows(db), (t: Topic) => MatchesKeyword(t, keyword), (t: Topic) => t.isVisible,
      (t: Topic) => t.isVisible && MatchesKeyword(t, keyword));
  }

  /** For a non-empty keyword whose characters after the first are not special to `LIKE`, the
      keyword searches list exactly the topics whose text contains the keyword. */
  lemma KeywordSearchIsSubstring(db: Db, keyword: string)
    requires Valid(db)
    requires keyword != [] && Like.Plain(keyword[1..])
    ensures Selects(db, GetTopicsByKeyword(db, keyword), (t: Topic) => t.isVisible && Like.Contains(t.body, keyword))
    ensures Selects(db, GetAllTopicsByKeyword(db, keyword), (t: Topic) => Like.Contains(t.body, keyword))
  {
    forall t: Topic
      ensures MatchesKeyword(t, keyword) <==> Like.Contains(t.body, keyword)
    {
      Like.KeywordIsSubstring(t.body, keyword);
    }
  }

  /** Storing `t` under its id keeps the database valid when the id is either already taken by
      that row or is the next sequence value. */
  lemma PutTopicKeepsValid(db: Db, t: Topic, next: int)
    requires Valid(db)
    requires t.id in db.topics || t.id == db.nextTopicId
    requires next == if t.id in db.topics then db.nextTopicId else db.nextTopicId + 1
    ensures Valid(db.(topics := db.topics[t.id := t], nextTopicId := next))
  {
  }

  /** Inserts a topic for the signed-in caller under the next id. The server sets the owner to
      the caller, the date to `today`, and the flags to the table defaults (visible, not adopted),
      whatever the request said. */
  function CreateTopic(db: Db, body: TopicCreate, caller: Option<User>, today: int): (r: Stored<Result<Topic, Error>>)
    ensures Valid(db) ==> Valid(r.db)
    ensures r.out.Err? <==> caller.None?
    ensures r.out.Err? ==> r.out.error == LoginRequired && r.db == db
    ensures Valid(db) && r.out.Ok? ==> r.out.value.id !in db.topics
    ensures r.out.Ok? ==> var t := r.out.value;
      && t.contributorId == caller.value.id
      && t.postDate == today && t.isVisible && !t.isAdopted
      && t.body == body.body && t.pictureUrl == body.pictureUrl
      && t.id == db.nextTopicId
      && r.db.topics == db.topics[t.id := t] && r.db.users == db.users
      && r.db.nextTopicId == t.id + 1 && r.db.nextUserId == db.nextUserId
  {
    match caller
    case None => Stored(Err(LoginRequired), db)
    case Some(u) =>
      var t := Topic(db.nextTopicId, body.body, body.pictureUrl, today, true, false, u.id);
      assert Valid(db) ==> Valid(db.(topics := db.topics[t.id := t], nextTopicId := t.id + 1)) by {
        if Valid(db) { PutTopicKeepsValid(db, t, t.id + 1); }
      }
      Stored(Ok(t), db.(topics := db.topics[t.id := t], nextTopicId := t.id + 1))
  }

  /** The stored topic after an edit: every field the request carries overwrites, including the
      contributor, and the id and unset fields stay as they were. */
  function Edited(t: Topic, body: TopicEdit): Topic
  {
    t.(body := body.body,
       pictureUrl := Apply(body.pictureUrl, t.pictureUrl),
       postDate := body.postDate,
       isVisible := Apply(body.isVisible, t.isVisible),
       isAdopted := Apply(body.isAdopted, t.isAdopted),
       contributorId := body.contributorId)
  }

  /** Edits topic `id`. The checks run in this order: a caller must be signed in (401); the
      caller's id must equal the contributor id in the request body, not the stored one (403);
      the topic must exist (404). */
  function EditTopic(db: Db, id: int, body: TopicEdit, caller: Option<User>): (r: Stored<Result<Topic, Error>>)
    ensures Valid(db) ==> Valid(r.db)
    ensures r.out.Err? ==> r.db == db
    ensures caller.None? ==> r.out == Err(LoginRequired)
    ensures caller.Some? && caller.value.id != body.contributorId ==> r.out == Err(NotContributor)
    ensures caller.Some? && caller.value.id == body.contributorId && id !in db.topics ==> r.out == Err(TopicNotFound)
    ensures r.out.Ok? <==> caller.Some? && caller.value.id == body.contributorId && id in db.topics
    ensures r.out.Ok? ==> var t := r.out.value;
      && t.id == db.topics[id].id
      && t.contributorId == caller.value.id
      && t.body == body.body && t.postDate == body.postDate
      && (body.pictureUrl.Set? ==> t.pictureUrl == body.pictureUrl.value)
      && (body.pictureUrl.Unset? ==> t.pictureUrl == db.topics[id].pictureUrl)
      && (body.isVisible.Set? ==> t.isVisible == body.isVisible.value)
      && (body.isVisible.Unset? ==> t.isVisible == db.topics[id].isVisible)
      && (body.isAdopted.Set? ==> t.isAdopted == body.isAdopted.value)
      && (body.isAdopted.Unset? ==> t.isAdopted == db.topics[id].isAdopted)
      && r.db == db.(topics := db.topics[id := t])
  {
    if caller.None? then Stored(Err(LoginRequired), db)
    else if caller.value.id != body.contributorId then Stored(Err(NotContributor), db)
    else match GetTopic(db, id)
      case Err(e) => Stored(Err(e), db)
      case Ok(current) =>
        var t := Edited(current, body);
        assert Valid(db) ==> Valid(db.(topics := db.topics[id := t])) by {
          if Valid(db) {
            assert db.(topics := db.topics[id := t], nextTopicId := db.nextTopicId) == db.(topics := db.topics[id := t]);
            PutTopicKeepsValid(db, t, db.nextTopicId);
          }
        }
        Stored(Ok(t), db.(topics := db.topics[id := t]))
  }

  /** The ownership test of the delete route: the caller contributed the topic, by value
      equality of ids, or is a superuser. */
  predicate MayDrop(caller: User, t: Topic)
  {
    caller.id == t.contributorId || caller.isSuperuser
  }

  /** Soft-deletes topic `id`. The checks run in this order: a caller must be signed in (401);
      the topic must exist (404); the caller must contribute it or be a superuser (403). On
      success only `isVisible` changes, to false; the row stays. */
  function DropTopic(db: Db, id: int, caller: Option<User>): (r: Stored<Result<Topic, Error>>)
    ensures Valid(db) ==> Valid(r.db)
    ensures r.out.Err? ==> r.db == db
    ensures caller.None? ==> r.out == Err(LoginRequired)
    ensures caller.Some? && id !in db.topics ==> r.out == Err(TopicNotFound)
    ensures caller.Some? && id in db.topics && !MayDrop(caller.value, db.topics[id]) ==> r.out == Err(NoPermission)
    ensures r.out.Ok? <==> caller.Some? && id in db.topics && MayDrop(caller.value, db.topics[id])
    ensures r.out.Ok? ==> r.out.value == db.topics[id].(isVisible := false)
    ensures r.out.Ok? ==> r.db == db.(topics := db.topics[id := r.out.value])
  {
    match caller
    case None => Stored(Err(LoginRequired), db)
    case Some(u) =>
      match GetTopic(db, id)
      case Err(e) => Stored(Err(e), db)
      case Ok(t) =>
        if !MayDrop(u, t) then Stored(Err(NoPermission), db)
        else
          var hidden := t.(isVisible := false);
          assert Valid(db) ==> Valid(db.(topics := db.topics[id := hidden])) by {
            if Valid(db) {
              assert db.(topics := db.topics[id := hidden], nextTopicId := db.nextTopicId) == db.(topics := db.topics[id := hidden]);
              PutTopicKeepsValid(db, hidden, db.nextTopicId);
            }
          }
          Stored(Ok(hidden), db.(topics := db.topics[id := hidden]))
  }

  /** Dropping twice is dropping once: the second drop succeeds and changes nothing. */
  lemma DropIdempotent(db: Db, id: int, caller: Option<User>)
    requires DropTopic(db, id, caller).out.Ok?
    ensures var once := DropTopic(db, id, caller);
      DropTopic(once.db, id, caller) == once
  {
    var once := DropTopic(db, id, caller);
    assert once.db.topics[id := once.out.value] == once.db.topics;
  }

  /** A dropped topic leaves the visible listings and stays in the full one. */
  lemma DroppedTopicHidden(db: Db, id: int, caller: Option<User>)
    requires Valid(db)
    requires DropTopic(db, id, caller).out.Ok?
    ensures var after := DropTopic(db, id, caller).db;
      && (forall i :: 0 <= i < |GetTopics(after)| ==> GetTopics(after)[i].id != id)
      && after.topics[id] in GetAllTopics(after)
  {
  }

  /** An edit that succeeds makes the caller the topic's contributor, whoever contributed it
      before: the ownership check reads the request body, and the body's contributor id is then
      written to the row. */
  lemma EditTransfersOwnership(db: Db, id: int, body: TopicEdit, caller: User)
    requires id in db.topics && body.contributorId == caller.id
    ensures var r := EditTopic(db, id, body, Some(caller));
      r.out.Ok? && r.db.topics[id].contributorId == caller.id
  {
  }

  /** The identity test `a is not b` on two ids read from different rows. CPython keeps a
      single shared object for each integer from -5 to 256, so within that range identity is
      value equality; outside it the two reads are distinct objects and `is not` holds even
      when the values are equal. */
  predicate IsNot(a: int, b: int)
  {
    !(a == b && -5 <= a <= 256)
  }

  /** The ownership test of the revision that compares ids by identity. */
  predicate MayDropAsWritten(caller: User, t: Topic)
  {
    !(IsNot(caller.id, t.contributorId) && !caller.isSuperuser)
  }

  /** The soft delete of the revision that compares ids by identity; otherwise the same checks
      in the same order as `DropTopic`. */
  function DropTopicAsWritten(db: Db, id: int, caller: Option<User>): (r: Stored<Result<Topic, Error>>)
    ensures Valid(db) ==> Valid(r.db)
    ensures r.out.Err? ==> r.db == db
    ensures caller.None? ==> r.out == Err(LoginRequired)
    ensures caller.Some? && id !in db.topics ==> r.out == Err(TopicNotFound)
    ensures caller.Some? && id in db.topics && !MayDropAsWritten(caller.value, db.topics[id]) ==>
      r.out == Err(NoPermission)
    ensures r.out.Ok? <==> caller.Some? && id in db.topics && MayDropAsWritten(caller.value, db.topics[id])
    ensures r.out.Ok? ==> r.out.value == db.topics[id].(isVisible := false)
    ensures r.out.Ok? ==> r.db == db.(topics := db.topics[id := r.out.value])
  {
    match caller
    case None => Stored(Err(LoginRequired), db)
    case Some(u) =>
      match GetTopic(db, id)
      case Err(e) => Stored(Err(e), db)
      case Ok(t) =>
        if !MayDropAsWritten(u, t) then Stored(Err(NoPermission), db)
        else
          var hidden := t.(isVisible := false);
          assert Valid(db) ==> Valid(db.(topics := db.topics[id := hidden])) by {
            if Valid(db) {
              assert db.(topics := db.topics[id := hidden], nextTopicId := db.nextTopicId) == db.(topics := db.topics[id := hidden]);
              PutTopicKeepsValid(db, hidden, db.nextTopicId);
            }
          }
          Stored(Ok(hidden), db.(topics := db.topics[id := hidden]))
  }

  /** The two revisions agree whenever the caller's id lies in CPython's shared small-integer
      range, and for every superuser. */
  lemma RevisionsAgreeOnSmallIds(db: Db, id: int, caller: User)
    requires -5 <= caller.id <= 256 || caller.isSuperuser
    ensures DropTopicAsWritten(db, id, Some(caller)) == DropTopic(db, id, Some(caller))
  {
  }

  /** The identity revision refuses an owner whose id is above 256: the contributor of topic 1,
      user 257, who is not a superuser, gets 403 where value equality lets the drop through. */
  lemma OwnerAbove256Refused()
    ensures var owner := User(257, "owner@example.com", None, None, "digest", true, false);
      var t := Topic(1, "topic", None, 0, true, false, 257);
      var db := Db(map[257 := owner], map[1 := t], 258, 2);
      && Valid(db)
      && DropTopicAsWritten(db, 1, Some(owner)).out == Err(NoPermission)
      && DropTopic(db, 1, Some(owner)).out == Ok(t.(isVisible := false))
  {
    var owner := User(257, "owner@example.com", None, None, "digest", true, false);
    var t := Topic(1, "topic", None, 0, true, false, 257);
    var db := Db(map[257 := owner], map[1 := t], 258, 2);
    assert MayDrop(owner, t);
    assert !MayDropAsWritten(owner, t);
  }
}

=== FILE: user_crud.dfy ===
/** Reads and writes on the `user` table. Every write returns the database after it; a write
    that fails returns the database it was given, as its transaction never commits. */
module UserCrud {
  import opened Wrappers
  import opened Models
  import Ordered
  import Security

  /** Raised when no user has the requested id. */
  const UserNotFound := HttpError(404, "User not found", false)

  /** The fields of an account-creation request, with every optional field already resolved to
      the value the request carried or the schema's default. */
  datatype UserCreate = UserCreate(
    email: string,
    password: string,
    isActive: bool,
    isSuperuser: bool,
    firstName: Option<string>,
    lastName: Option<string>)

  /** The fields of an edit request. `email` and `password` are required by the schema and so are
      always part of the update; every other field is applied only when the client set it. */
  datatype UserEdit = UserEdit(
    email: string,
    password: string,
    isActive: Patch<bool>,
    isSuperuser: Patch<bool>,
    firstName: Patch<Option<string>>,
    lastName: Patch<Option<string>>)

  /** The user with id `id`, or 404. */
  function GetUser(db: Db, id: int): (r: Result<User, Error>)
    ensures r.Ok? <==> id in db.users
    ensures r.Ok? ==> r.value == db.users[id]
    ensures r.Err? ==> r.error == UserNotFound
  {
    if id in db.users then Ok(db.users[id]) else Err(UserNotFound)
  }

  /** The users whose email is `email`, by ascending id. */
  function WithEmail(db: Db, email: string): seq<User>
  {
    Ordered.Filter(UserRows(db), (u: User) => u.email == email)
  }

  /** The first user whose email is `email`, or `None`. As emails are unique, this is the one
      user with that email whenever there is one. */
  function GetUserByEmail(db: Db, email: string): (r: Option<User>)
    ensures r.Some? ==> r.value.email == email
    ensures Valid(db) && r.Some? ==> r.value.id in db.users && db.users[r.value.id] == r.value
    ensures Valid(db) ==> forall k :: k in db.users && db.users[k].email == email ==> r == Some(db.users[k])
  {
    var hits := WithEmail(db, email);
    if hits == [] then None
    else
      assert hits[0] in hits;
      Some(hits[0])
  }

  /** Some stored user other than the one with id `except` has email `email`. */
  ghost predicate EmailUsed(db: Db, email: string, except: Option<int>)
  {
    exists k :: k in db.users && Some(k) != except && db.users[k].email == email
  }

  /** The email lookup finds a user exactly when one has that email. */
  lemma {:induction false} LookupFindsUsedEmail(db: Db, email: string)
    requires Valid(db)
    ensures GetUserByEmail(db, email).Some? <==> EmailUsed(db, email, None)
  {
    var r := GetUserByEmail(db, email);
    if r.Some? {
      var k := r.value.id;
      assert k in db.users && Some(k) != None && db.users[k].email == email;
    }
  }

  /** The lookup, seen from an edit of user `id`: it finds a user other than `id` exactly when
      another user already has that email. */
  lemma {:induction false} LookupFindsOtherEmail(db: Db, email: string, id: int)
    requires Valid(db)
    ensures (GetUserByEmail(db, email).Some? && GetUserByEmail(db, email).value.id != id)
      <==> EmailUsed(db, email, Some(id))
  {
    var r := GetUserByEmail(db, email);
    if r.Some? && r.value.id != id {
      var k := r.value.id;
      assert k in db.users && Some(k) != Some(id) && db.users[k].email == email;
    }
    if EmailUsed(db, email, Some(id)) {
      var k :| k in db.users && Some(k) != Some(id) && db.users[k].email == email;
      assert r == Some(db.users[k]);
    }
  }

  /** Storing `u` under its id keeps the database valid when no other user has its email and
      the id is either already taken by that same row or is the next sequence value. */
  lemma {:induction false} PutUserKeepsValid(db: Db, u: User, next: int)
    requires Valid(db)
    requires u.id in db.users || u.id == db.nextUserId
    requires next == if u.id in db.users then db.nextUserId else db.nextUserId + 1
    requires forall k :: k in db.users && k != u.id ==> db.users[k].email != u.email
    ensures Valid(db.(users := db.users[u.id := u], nextUserId := next))
  {
    var users := db.users[u.id := u];
    forall a, b | a in users && b in users && users[a].email == users[b].email
      ensures a == b
    {
      if a != u.id && b != u.id {
        assert db.users[a].email == db.users[b].email;
      }
    }
  }

  /** At most `limit` users, taken in id order after skipping the first `skip`: one page of
      the user listing. */
  function GetUsers(db: Db, skip: nat, limit: nat): (r: seq<User>)
    ensures |r| <= limit
    ensures |r| > 0 ==> skip + |r| <= |UserRows(db)|
    ensures forall i :: 0 <= i < |r| ==> r[i] == UserRows(db)[skip + i]
    ensures |r| < limit ==> skip + |r| >= |UserRows(db)|
  {
    var rows := UserRows(db);
    if |rows| <= skip then []
    else if |rows| - skip <= limit then rows[skip..]
    else rows[skip..skip + limit]
  }

  /** Inserts a new user under the next id, storing the digest of the password and never the
      password. The unique index refuses a second account with the same email. */
  function CreateUser(db: Db, body: UserCreate, ctx: Security.PasswordContext): (r: Stored<Result<User, Error>>)
    ensures Valid(db) ==> Valid(r.db)
    ensures Valid(db) ==> (r.out.Err? <==> EmailUsed(db, body.email, None))
    ensures r.out.Err? ==> r.out.error == EmailTaken && r.db == db
    ensures Valid(db) && r.out.Ok? ==> r.out.value.id !in db.users
    ensures r.out.Ok? ==> var u := r.out.value;
      && u.id == db.nextUserId
      && u.email == body.email && u.hashedPassword == ctx.hash(body.password)
      && u.isActive == body.isActive && u.isSuperuser == body.isSuperuser
      && u.firstName == body.firstName && u.lastName == body.lastName
      && r.db.users == db.users[u.id := u] && r.db.topics == db.topics
      && r.db.nextUserId == u.id + 1 && r.db.nextTopicId == db.nextTopicId
  {
    if GetUserByEmail(db, body.email).Some? then
      assert Valid(db) ==> EmailUsed(db, body.email, None) by {
        if Valid(db) { LookupFindsUsedEmail(db, body.email); }
      }
      Stored(Err(EmailTaken), db)
    else
      var id := db.nextUserId;
      var u := User(id, body.email, body.firstName, body.lastName, ctx.hash(body.password),
                    body.isActive, body.isSuperuser);
      assert Valid(db) ==> id !in db.users && Valid(db.(users := db.users[id := u], nextUserId := id + 1)) by {
        if Valid(db) {
          PutUserKeepsValid(db, u, id + 1);
        }
      }
      Stored(Ok(u), db.(users := db.users[id := u], nextUserId := id + 1))
  }

  /** Removes the user with id `id` (a hard delete), or 404. */
  function DeleteUser(db: Db, id: int): (r: Stored<Result<User, Error>>)
    ensures Valid(db) ==> Valid(r.db)
    ensures r.out.Ok? <==> id in db.users
    ensures r.out.Err? ==> r.out.error == UserNotFound && r.db == db
    ensures r.out.Ok? ==> r.out.value == db.users[id]
    ensures r.db.users.Keys == db.users.Keys - {id}
    ensures forall k :: k in r.db.users ==> r.db.users[k] == db.users[k]
    ensures r.db == db.(users := r.db.users)
  {
    match GetUser(db, id)
    case Err(e) => Stored(Err(e), db)
    case Ok(u) => Stored(Ok(u), db.(users := db.users - {id}))
  }

  /** The stored user after an edit: the fields the request carries overwrite, the password is
      replaced by its digest, and the id and every unset field stay as they were. */
  function Edited(u: User, body: UserEdit, ctx: Security.PasswordContext): User
  {
    u.(email := body.email,
       hashedPassword := ctx.hash(body.password),
       isActive := Apply(body.isActive, u.isActive),
       isSuperuser := Apply(body.isSuperuser, u.isSuperuser),
       firstName := Apply(body.firstName, u.firstName),
       lastName := Apply(body.lastName, u.lastName))
  }

  /** Edits the user with id `id`, or 404. An email already used by another user is refused by
      the unique index. */
  function EditUser(db: Db, id: int, body: UserEdit, ctx: Security.PasswordContext): (r: Stored<Result<User, Error>>)
    ensures Valid(db) ==> Valid(r.db)
    ensures id !in db.users ==> r.out == Err(UserNotFound) && r.db == db
    ensures id in db.users && r.out.Err? ==> r.out.error == EmailTaken
    ensures r.out.Err? ==> r.db == db
    ensures Valid(db) && id in db.users ==>
      (r.out.Err? <==> EmailUsed(db, body.email, Some(id)))
    ensures r.out.Ok? ==> var u := r.out.value;
      && id in db.users && u.id == db.users[id].id
      && u.email == body.email && u.hashedPassword == ctx.hash(body.password)
      && (body.isActive.Set? ==> u.isActive == body.isActive.value)
      && (body.isActive.Unset? ==> u.isActive == db.users[id].isActive)
      && (body.isSuperuser.Set? ==> u.isSuperuser == body.isSuperuser.value)
      && (body.isSuperuser.Unset? ==> u.isSuperuser == db.users[id].isSuperuser)
      && (body.firstName.Set? ==> u.firstName == body.firstName.value)
      && (body.firstName.Unset? ==> u.firstName == db.users[id].firstName)
      && (body.lastName.Set? ==> u.lastName == body.lastName.value)
      && (body.lastName.Unset? ==> u.lastName == db.users[id].lastName)
      && r.db == db.(users := db.users[id := u])
  {
    match GetUser(db, id)
    case Err(e) => Stored(Err(e), db)
    case Ok(current) =>
      var owner := GetUserByEmail(db, body.email);
      assert Valid(db) ==> (owner.Some? && owner.value.id != id <==> EmailUsed(db, body.email, Some(id))) by {
        if Valid(db) { LookupFindsOtherEmail(db, body.email, id); }
      }
      if owner.Some? && owner.value.id != id then
        Stored(Err(EmailTaken), db)
      else
        var u := Edited(current, body, ctx);
        assert Valid(db) ==> Valid(db.(users := db.users[id := u])) by {
          if Valid(db) {
            assert db.(users := db.users[id := u], nextUserId := db.nextUserId) == db.(users := db.users[id := u]);
            PutUserKeepsValid(db, u, db.nextUserId);
          }
        }
        Stored(Ok(u), db.(users := db.users[id := u]))
  }
}

=== FILE: wrappers.dfy ===
/** Failure-carrying and optional values shared by every other module. */
module Wrappers {

  /** A value that may be absent: Python's `None` or a present value. */
  datatype Option<+T> = None | Some(value: T)

  /** The outcome of an operation that either yields a value or fails with an error. */
  datatype Result<+T, +E> = Ok(value: T) | Err(error: E) {
    predicate IsFailure() {
      Err?
    }

    function PropagateFailure<U>(): Result<U, E>
      requires Err?
    {
      Err(error)
    }

    function Extract(): T
      requires Ok?
    {
      value
    }
  }

  /** One field of a partial update: either left unset by the client or set to a new value
      (the effect of a request schema's `dict(exclude_unset=True)`). */
  datatype Patch<+T> = Unset | Set(value: T)

  /** The field's value after patch `p` has been applied to `current`. */
  function Apply<T>(p: Patch<T>, current: T): T
  {
    match p
    case Unset => current
    case Set(v) => v
  }
}
